=== FILE: README.md ===
# Relationship Space Visualizer — verified model of its core

The visualiser is a single Streamlit script (`app.py`). It keeps a session table of relationship
records with the columns name, give, take, hot, cold and closeness `n`. On every interaction it runs
one pass over that table:

1. It seeds the table if the session has none.
2. It replaces the table with an uploaded file if there is one.
3. It appends the sidebar entry when the Name box is non-empty.
4. It deletes every row with the name chosen in the delete box, unless the `"None"` option is chosen.
5. It writes a `tag` column, classifying every row with four ordered rules.

Each row is then drawn as a point. Its direction comes from the hot share and the give share, each
taken as a percentage and shifted by 50. Concentric reference rings are drawn at radii 1..int(max n).

This project models those pieces in Dafny:

- `records.dfy` (module `Records`): the row and the sidebar entry.
- `classifier.dfy` (module `Classifier`): the tag rules as a total function, with lemmas on rule priority.
- `table.dfy` (module `Table`): one function per update step, and their composition `AfterPass`.
  It also holds the class `Session`. Its methods `Seed`, `Replace`, `Append`, `DeleteByName`,
  `Retag` and `Pass` change the session's table in place and are proved to yield exactly those functions.
- `projection.dfy` (module `Projection`): the percentage normalisation over `real`.
  A zero denominator gives an explicit degenerate result (`None`).
- `rings.dfy` (module `Rings`): the ring radii, from Python's `int()` of the largest closeness.

Numbers are modelled as `real`. The sliders give integers, but an uploaded file may carry any number.
The tag column is an `Option<string>` per row. `None` stands for a missing value or a non-number:
the seed table has no tag column, and an appended row gets none. `Some` holds either a tag that came with an upload or the label written by an earlier pass, since the tag column persists in the session table.

Four behaviours of the script matter for reading the model:

- Rings go up to `int(max n)`, which truncates toward zero. A largest closeness of 2.5 gives rings 1 and 2 only.
- An upload replaces the table without any validation step. The model's rows always have all six columns with numbers, so a missing column or an empty cell is not represented (see `Table.Session.Replace` under "## Left out").
- A zero denominator gets no fallback value. It is the degenerate result.
- An empty table (for example, after its last name is deleted) makes the ring step fail, because `int()` of the missing maximum raises. `RingRadii` returns `None` there.

## Model

| member | source | states |
|---|---|---|
| `Classifier.Suggest` | app.py:61-69 | The tag is Warm Giver exactly when give > 70 and hot > 70. Cold Taker implies take > 70 and cold > 70. Balanced implies give == take. Complex implies give != take. The function is total and never divides. |
| `Classifier.WarmGiverFirst` | app.py:62-63 | When give > 70 and hot > 70 the tag is Warm Giver for every take, cold and n, including give == take and the case where the cold-taker condition holds too. |
| `Classifier.RuleOrder` | app.py:64-69 | Otherwise, first match wins. Cold Taker holds iff take > 70 and cold > 70. Balanced holds iff neither extreme rule applies and give == take. Complex holds iff neither applies and give != take. |
| `Classifier.SuggestIgnoresOtherColumns` | app.py:61-69 | The tag does not depend on the name, the closeness or any tag already present. |
| `Classifier.MirrorSwapsExtremes` | app.py:61-69 | Swapping give/take and hot/cold swaps Warm Giver and Cold Taker and keeps Balanced and Complex, except where both extreme conditions hold. There rule 1 wins both ways round. |
| `Classifier.LabelsDistinct` | app.py:63-69 | The four labels written into the tag column are pairwise different. |
| `Table.InitialTable` | app.py:24-32 | The seed table has five rows named mum, dad, chris, Jum, Jom in that order, all with n = 1 and no tag. |
| `Table.Retagged` | app.py:71 | The recomputed table has one row per input row, in the same order. Each tag is the label of that row's suggestion, and every other column is unchanged. |
| `Table.Without` | app.py:57 | The filtered table holds exactly the rows whose name differs from the selection, and is no longer than the input. |
| `Table.AppendedShape` | app.py:42-51 | A non-empty name adds one row, last, with the sidebar values, and keeps the earlier rows in order. An empty name changes nothing. |
| `Table.WithoutConcat` | app.py:57 | The filter is order-preserving: filtering a concatenation filters each part. |
| `Table.WithoutAbsent` | app.py:57 | Deleting a name that no row carries leaves the table unchanged. |
| `Table.DeletedShape` | app.py:55-57 | Selecting the sentinel changes nothing. Otherwise exactly the rows with other names remain. Selecting an absent name changes nothing. |
| `Table.NoneNamedRowsSurvive` | app.py:55-57 | A row named "None" survives every deletion, because choosing it cannot be told apart from choosing the sentinel. |
| `Table.DeleteUndoesAppendOfSelected` | app.py:42-57 | Deletion runs after the append, so an appended row with the selected name is removed in the same pass. |
| `Table.RetaggedIdempotent` | app.py:71 | Writing the tag column twice gives the same table as writing it once. |
| `Table.RetaggedOverwritesTags` | app.py:71 | Tables that differ only in their tag column, for example one uploaded with a stale tag, are equal after retagging. |
| `Table.RetaggedConcat` | app.py:71 | Retagging works row by row: retagging a concatenation retags each part. |
| `Table.RetaggedWithout` | app.py:57-71 | Deleting by name and retagging commute, so tags never decide what is deleted. |
| `Table.PassRemovesSelected` | app.py:34-71 | After a pass with a real selection, no row carries the selected name. This includes a row appended in the same pass. |
| `Table.PassKeepsEntry` | app.py:42-71 | A named entry ends the pass as the last row, with its suggested tag, unless it carries the selected name. This includes an entry named "None" when the sentinel is selected. |
| `Table.FirstPassTags` | app.py:24-71 | The first pass of a session with no input yields exactly the retagged seed table: five rows. Their tags are Complex, Cold Taker, Balanced, Complex and Complex. |
| `Table.Session.constructor` | app.py:34 | A new session holds no table. |
| `Table.Session.Seed` | app.py:34-35 | Afterwards the session has a table: the seed table if it had none, and otherwise the table it had. |
| `Table.Session.Replace` | app.py:38-39 | An upload replaces the table wholesale: the new table is exactly the uploaded rows. |
| `Table.Session.Append` | app.py:42-51 | Same as `AppendedShape`, but on the session's own table. Nothing else in the session changes. |
| `Table.Session.DeleteByName` | app.py:55-57 | The table becomes the sentinel-guarded filter. No row with the selected name remains, and an absent name changes nothing. |
| `Table.Session.Retag` | app.py:71 | The loop writes the tag column in place, and the result is exactly `Retagged` of the old table. |
| `Table.Session.Pass` | app.py:34-71 | One run of the script leaves the session holding a table, and that table is `AfterPass` of its previous state and the inputs. |
| `Projection.Percent` | app.py:86-87 | The share is degenerate exactly when the denominator is zero. Otherwise it times (part + other) gives 100 · part. |
| `Projection.PercentInRange` | app.py:86-87 | With non-negative parts and a positive total, the percentage lies in [0, 100]. |
| `Projection.ShiftSign` | app.py:86-89 | Over a positive total, the shifted value has the sign of part − other. |
| `Projection.QuadrantOfRow` | app.py:86-89 | For rows with non-negative values and non-zero totals, the shifted x has the sign of hot − cold and the shifted y has the sign of give − take, so for a positive closeness n these fix the quadrant the point is drawn in. Both shifted values lie in [−50, 50]. |
| `Projection.DegenerateExactly` | app.py:86-89 | Each direction is degenerate exactly when its denominator, hot + cold or give + take, is zero. |
| `Projection.SliderEntryCanBeDegenerate` | app.py:86-87 | An entry within the slider ranges, with give = take = 0, gives a degenerate relational direction. |
| `Records.NewRow` | app.py:43-50 | The one-row frame built from the Name box and the sliders, with no tag. Its place in the table is stated by `Table.AppendedShape` and `Table.PassKeepsEntry`. |
| `Records.Closeness` | app.py:99 | The closeness column `df['n']`, in row order. `Rings.RingRadii`, `Rings.RowOnDrawnRing` and `Rings.SeedTableHasOneRing` state what the rings drawn from it cover. |
| `Classifier.Label` | app.py:63-69 | The four label strings written into the tag column. `Classifier.LabelsDistinct` states that they are pairwise different. |
| `Table.Tagged` | app.py:61-71 | One row with its tag written. `Table.Retagged` states its effect row by row: only the tag changes, and it becomes the label of the suggestion. |
| `Table.Seeded` | app.py:34-35 | The seed step. `Table.Session.Seed` performs it, and `Table.FirstPassTags` states its result for a new session. |
| `Table.Uploaded` | app.py:38-39 | The upload step: the uploaded rows replace the table. `Table.Session.Replace` performs it, and `Table.RetaggedOverwritesTags` states that any uploaded tags are overwritten. |
| `Table.Appended` | app.py:42-51 | The append step. Its shape is `Table.AppendedShape`, and `Table.Session.Append` performs it. |
| `Table.Deleted` | app.py:55-57 | The delete step with the sentinel guard. Its shape is `Table.DeletedShape`, with `Table.NoneNamedRowsSurvive` and `Table.DeleteUndoesAppendOfSelected`. `Table.Session.DeleteByName` performs it. |
| `Table.AfterPass` | app.py:34-71 | One run of the script, steps in order. `Table.PassRemovesSelected`, `Table.PassKeepsEntry` and `Table.FirstPassTags` state what it yields, and `Table.Session.Pass` performs it. |
| `Projection.Shift` | app.py:88-89 | The shift by 50, with a degenerate value staying degenerate. `Projection.ShiftSign` states the sign of the result. |
| `Projection.XShift` | app.py:86-88 | The shifted hot share of a row. `Projection.QuadrantOfRow` states its sign and bounds, and `Projection.DegenerateExactly` states when it is degenerate. |
| `Projection.YShift` | app.py:87-89 | The shifted give share of a row. `Projection.QuadrantOfRow` states its sign and bounds, and `Projection.DegenerateExactly` states when it is degenerate. |
| `Rings.IntOf` | app.py:99 | int() truncates toward zero: the result is the integer part of the number, never farther from zero than the number. |
| `Rings.MaxOf` | app.py:99 | The maximum of a non-empty column is one of its values and at least every value. |
| `Rings.RingRadii` | app.py:99-103 | The rings drawn are exactly the radii 1, 2, …, int(max n), in that order, or none when that is below 1. An empty table fails (`None`). |
| `Rings.RowOnDrawnRing` | app.py:99-103 | A row whose closeness is a whole number k ≥ 1 lies on a drawn ring: 1 ≤ k ≤ int(max n). |
| `Rings.SeedTableHasOneRing` | app.py:99-100 | For the seed table, where every n is 1, the single ring has radius 1. |

## Left out

- Streamlit widgets, page layout and display (app.py:7-21, the delete box widget at 55, 60, 74-75, 119-124) are left out. The Name box, the sliders, the upload and the delete-box choice are parameters of `Session.Pass`.
- The rerun model is left out. Streamlit re-executes the script on every interaction, so the append re-fires while the Name box stays non-empty. One pass is modelled.
- The delete box offers only "None" and the current names. The model accepts any selected name, which covers every choice the box can make.
- CSV reading and writing (`pd.read_csv` at 39; `to_csv`, `BytesIO` and the download at 78-82) are left out. These are library I/O. An upload is "replace with a given sequence of rows".
- The angle and the placement (`arctan2`, `cos`, `sin` at 90-92) are left out. They are floating-point trigonometry. The model stops at the shifted percentages and their signs, which fix the quadrant for n > 0. A point with n = 0 is drawn at the origin, and one with n < 0 in the opposite quadrant.
- Matplotlib rendering (95-116) is left out, apart from the range of ring radii.
- Floating-point behaviour is left out. Numbers are exact reals.
- Projection.Percent: a zero denominator gives the explicit `None`, for 0/0 (NaN in the source) and for a non-zero part over a zero total alike. The latter is ±infinity in the source, and `arctan2` still gives a finite angle for it, so the source draws that point where the model records only "degenerate". This case needs uploaded values with hot = −cold or give = −take.
- Table.Session.Replace: the model assumes an upload carries the six columns with numeric values. Two cases are not represented.
  With an empty Name box, a missing column raises KeyError at the first line that reads it:
  `name` at app.py:55, `give` in the apply at app.py:62, and `n` at app.py:91.
  A missing `take`, `hot` or `cold` raises in the apply only when some row reaches that comparison, because `and` short-circuits at app.py:62 and 64; otherwise it raises at app.py:86-87.
  With a non-empty Name box, the concat at app.py:51 adds any missing column, `n` included, as NaN for the uploaded rows, and nothing raises.
  Those rows are then tagged as if the cells were empty, and their closeness is NaN, which `max()` at app.py:99 skips.
  An empty cell becomes NaN, and NaN compares false in every rule, so a row with give and take both empty is tagged Complex.
- Table.Uploaded: same as `Table.Session.Replace`; an uploaded table is a sequence of complete rows.
- The emoji in the tag labels are kept as Unicode escapes. Nothing beyond their text is modelled.

=== FILE: classifier.dfy ===
/** The tag classifier: an ordered list of four rules over a record's give,
    take, hot and cold columns, evaluated top to bottom, first match wins.
    The rules only compare; nothing is divided, so every row gets a tag. */
module Classifier {
  import opened Records

  /** The four tags, in rule order. */
  datatype Tag = WarmGiver | ColdTaker | Balanced | Complex

  /** The threshold both columns of the first two rules must exceed. */
  const Threshold: real := 70.0

  /** Rule 1's condition: a warm giver gives and runs hot. */
  predicate WarmAndGiving(r: Row)
  {
    r.give > Threshold && r.hot > Threshold
  }

  /** Rule 2's condition: a cold taker takes and runs cold. */
  predicate ColdAndTaking(r: Row)
  {
    r.take > Threshold && r.cold > Threshold
  }

  /** The suggested tag of one row. */
  function Suggest(r: Row): (t: Tag)
    ensures t == WarmGiver <==> WarmAndGiving(r)
    ensures t == ColdTaker ==> ColdAndTaking(r)
    ensures t == Balanced ==> r.give == r.take
    ensures t == Complex ==> r.give != r.take
  {
    if WarmAndGiving(r) then WarmGiver
    else if ColdAndTaking(r) then ColdTaker
    else if r.give == r.take then Balanced
    else Complex
  }

  /** The text written into the tag column for each tag. */
  function Label(t: Tag): string
  {
    match t
    case WarmGiver => "\U{2764}\U{FE0F} Warm Giver"
    case ColdTaker => "\U{2744}\U{FE0F} Cold Taker"
    case Balanced => "\U{2696}\U{FE0F} Balanced"
    case Complex => "\U{1F91D} Complex"
  }

  /** Rule 1 wins whatever take, cold and n are, even when give equals take
      or the cold-taker condition holds too. */
  lemma WarmGiverFirst(r: Row)
    requires WarmAndGiving(r)
    ensures Suggest(r) == WarmGiver
    ensures forall take: real, cold: real, n: real :: Suggest(r.(take := take, cold := cold, n := n)) == WarmGiver
  {
  }

  /** The remaining rules, in order: each tag holds exactly when its rule is the
      first one whose condition is met. */
  lemma RuleOrder(r: Row)
    ensures Suggest(r) == ColdTaker <==> !WarmAndGiving(r) && ColdAndTaking(r)
    ensures Suggest(r) == Balanced <==> !WarmAndGiving(r) && !ColdAndTaking(r) && r.give == r.take
    ensures Suggest(r) == Complex <==> !WarmAndGiving(r) && !ColdAndTaking(r) && r.give != r.take
  {
  }

  /** The classifier reads only give, take, hot and cold: the name, the
      closeness and any tag already present make no difference. */
  lemma SuggestIgnoresOtherColumns(r: Row, name: string, n: real, tag: Option<string>)
    ensures Suggest(r.(name := name, n := n, tag := tag)) == Suggest(r)
  {
  }

  /** The tag a mirrored row would be expected to get: the extremes swap. */
  function Mirror(t: Tag): Tag
  {
    match t
    case WarmGiver => ColdTaker
    case ColdTaker => WarmGiver
    case Balanced => Balanced
    case Complex => Complex
  }

  /** Swapping give with take and hot with cold swaps the two extreme tags and
      keeps the other two, except where both extreme conditions hold: there
      rule 1 wins both ways round, which is what makes the order matter. */
  lemma MirrorSwapsExtremes(r: Row)
    ensures !(WarmAndGiving(r) && ColdAndTaking(r)) ==>
      Suggest(r.(give := r.take, take := r.give, hot := r.cold, cold := r.hot)) == Mirror(Suggest(r))
    ensures WarmAndGiving(r) && ColdAndTaking(r) ==>
      Suggest(r.(give := r.take, take := r.give, hot := r.cold, cold := r.hot)) == WarmGiver == Suggest(r)
  {
  }

  /** Different tags are written as different labels. */
  lemma LabelsDistinct(a: Tag, b: Tag)
    ensures Label(a) == Label(b) <==> a == b
  {
  }
}

=== FILE: projection.dfy ===
/** Percentage normalisation: each row's hot share and give share as
    percentages, shifted so that an even split sits at zero. For a positive
    closeness, the signs of the two shifted values decide the quadrant in
    which the row is drawn; the
    angle and the trigonometric placement themselves are not modelled. */
module Projection {
  import opened Records

  /** `part / (part + other) * 100`, or None where the denominator is zero.
      There the source's division gives NaN for 0/0 and an infinity otherwise;
      the model treats both alike as degenerate, although the source still
      draws a point for an infinity. */
  function Percent(part: real, other: real): (p: Option<real>)
    ensures p.None? <==> part + other == 0.0
    ensures p.Some? ==> p.value * (part + other) == 100.0 * part
  {
    if part + other == 0.0 then None else Some(part / (part + other) * 100.0)
  }

  /** The offset of a percentage from the even split; a non-number stays one. */
  function Shift(p: Option<real>): Option<real>
  {
    if p.Some? then Some(p.value - 50.0) else None
  }

  /** The emotional direction: the hot share of hot and cold, shifted. */
  function XShift(r: Row): Option<real>
  {
    Shift(Percent(r.hot, r.cold))
  }

  /** The relational direction: the give share of give and take, shifted. */
  function YShift(r: Row): Option<real>
  {
    Shift(Percent(r.give, r.take))
  }

  datatype Sign = Negative | Zero | Positive

  function SignOf(x: real): Sign
  {
    if x < 0.0 then Negative else if x == 0.0 then Zero else Positive
  }

  /** With non-negative parts and a positive total the percentage lies in [0, 100]. */
  lemma PercentInRange(part: real, other: real)
    requires part >= 0.0 && other >= 0.0 && part + other > 0.0
    ensures Percent(part, other).Some?
    ensures 0.0 <= Percent(part, other).value <= 100.0
  {
    var total := part + other;
    var p := Percent(part, other).value;
    assert p == 100.0 * (part / total);
    assert part / total + other / total == total / total == 1.0;
    assert 100.0 - p == 100.0 * (other / total);
    assert part / total >= 0.0 && other / total >= 0.0;
  }

  /** The shifted value is 50 (part - other) / (part + other), so over a positive
      total it is positive, zero or negative exactly as part - other is. */
  lemma ShiftSign(part: real, other: real)
    requires part + other > 0.0
    ensures Shift(Percent(part, other)).Some?
    ensures SignOf(Shift(Percent(part, other)).value) == SignOf(part - other)
  {
  }

  /** The signs of the shifted values are fixed by hot against cold and by give
      against take, whatever the sizes of the values; for a positive closeness
      they give the quadrant the row is drawn in. */
  lemma QuadrantOfRow(r: Row)
    requires r.hot >= 0.0 && r.cold >= 0.0 && r.hot + r.cold > 0.0
    requires r.give >= 0.0 && r.take >= 0.0 && r.give + r.take > 0.0
    ensures XShift(r).Some? && YShift(r).Some?
    ensures SignOf(XShift(r).value) == SignOf(r.hot - r.cold)
    ensures SignOf(YShift(r).value) == SignOf(r.give - r.take)
    ensures -50.0 <= XShift(r).value <= 50.0 && -50.0 <= YShift(r).value <= 50.0
  {
    ShiftSign(r.hot, r.cold);
    ShiftSign(r.give, r.take);
    PercentInRange(r.hot, r.cold);
    PercentInRange(r.give, r.take);
  }

  /** Both directions are non-numbers exactly where their denominators vanish;
      the sliders allow this, for give = take = 0 or hot = cold = 0. */
  lemma DegenerateExactly(r: Row)
    ensures XShift(r).None? <==> r.hot + r.cold == 0.0
    ensures YShift(r).None? <==> r.give + r.take == 0.0
  {
  }

  /** A slider entry can hit the degenerate case: give = take = 0 is in range. */
  lemma SliderEntryCanBeDegenerate()
    ensures var r := NewRow(Entry("x", 0, 0, 50, 50, 1));
      YShift(r).None? && XShift(r) == Some(0.0)
  {
  }
}

=== FILE: records.dfy ===
/** The relationship records the visualiser keeps in its session table.
    A row is one line of the table: the five numeric columns of a record and
    the derived `tag` column, which is missing until the table is retagged. */
module Records {

  datatype Option<+T> = None | Some(value: T)

  /** One row of the table. The numeric columns are reals: the sliders give
      integers, but an uploaded file can carry any number. `tag` is None where
      the column is missing or not a number (the seed table has no tag column,
      and a freshly appended row gets no value in it). */
  datatype Row = Row(name: string, give: real, take: real, hot: real, cold: real, n: real, tag: Option<string>)

  /** What the sidebar supplies for a new record: the Name box and the five sliders
      (give, take, hot, cold in 0..100, closeness n in 1..10). */
  datatype Entry = Entry(name: string, give: int, take: int, hot: int, cold: int, n: int)

  /** The one-row frame built from the sidebar values; it has no tag yet. */
  function NewRow(e: Entry): Row
  {
    Row(e.name, e.give as real, e.take as real, e.hot as real, e.cold as real, e.n as real, None)
  }

  /** The closeness column of a table, in row order. */
  function Closeness(rows: seq<Row>): seq<real>
  {
    seq(|rows|, i requires 0 <= i < |rows| => rows[i].n)
  }

  /** The names of a table, in row order. */
  function Names(rows: seq<Row>): seq<string>
  {
    seq(|rows|, i requires 0 <= i < |rows| => rows[i].name)
  }
}

=== FILE: rings.dfy ===
/** The concentric reference rings drawn around "me": one ring for every
    integer radius from 1 up to the integer part of the largest closeness. */
module Rings {
  import opened Records
  import Table

  /** Integer conversion of a number as Python's int() does it: toward zero. */
  function IntOf(x: real): (t: int)
    ensures 0.0 <= x ==> 0 <= t && t as real <= x < t as real + 1.0
    ensures x < 0.0 ==> t <= 0 && t as real - 1.0 < x <= t as real
  {
    if x >= 0.0 then x.Floor else -((-x).Floor)
  }

  /** The largest value of a non-empty column. */
  function MaxOf(ns: seq<real>): (m: real)
    requires ns != []
    ensures m in ns
    ensures forall i :: 0 <= i < |ns| ==> ns[i] <= m
  {
    if |ns| == 1 then ns[0]
    else
      var rest := MaxOf(ns[1..]);
      if ns[0] >= rest then ns[0] else rest
  }

  /** The rings drawn for a table: radii 1, 2, ..., int(max n), in that order,
      none when that is below 1. An empty table has no maximum closeness, and
      the conversion of that missing value fails: the result is None. */
  method RingRadii(rows: seq<Row>) returns (radii: Option<seq<int>>)
    ensures radii.None? <==> rows == []
    ensures radii.Some? ==>
      var top := IntOf(MaxOf(Closeness(rows)));
      |radii.value| == (if top > 0 then top else 0) &&
      forall i :: 0 <= i < |radii.value| ==> radii.value[i] == i + 1
  {
    if rows == [] {
      return None;
    }
    var maxRadius := IntOf(MaxOf(Closeness(rows))) + 1;
    var drawn: seq<int> := [];
    var r := 1;
    while r < maxRadius
      invariant 1 <= r && (r <= maxRadius || r == 1)
      invariant |drawn| == r - 1
      invariant forall i :: 0 <= i < |drawn| ==> drawn[i] == i + 1
    {
      drawn := drawn + [r];
      r := r + 1;
    }
    return Some(drawn);
  }

  /** Every row whose closeness is a whole number of at least 1 sits on a drawn
      ring: its closeness is one of the radii. */
  lemma RowOnDrawnRing(rows: seq<Row>, i: int, k: int)
    requires 0 <= i < |rows| && rows[i].n == k as real && 1 <= k
    ensures 1 <= k <= IntOf(MaxOf(Closeness(rows)))
  {
    var ns := Closeness(rows);
    assert ns[i] == k as real;
    var top := MaxOf(ns);
    assert k as real <= top;
  }

  /** The seed table, where every closeness is 1, gets the single ring of radius 1. */
  lemma SeedTableHasOneRing()
    ensures IntOf(MaxOf(Closeness(Table.InitialTable()))) == 1
  {
  }
}

=== FILE: table.dfy ===
/** The session's record table and the update pass the script runs over it on
    every interaction: seed it if the session has none, replace it with an
    upload, append the sidebar entry, delete the selected name, and write the
    tag column. The functions state what each step yields; the class below
    performs the steps on its own state and is proved to yield exactly that. */
module Table {
  import opened Records
  import opened Classifier

  /** The first option of the delete box: choosing it deletes nothing. */
  const NoSelection: string := "None"

  /** The table a new session starts with. */
  function InitialTable(): (t: seq<Row>)
    ensures |t| == 5
    ensures Names(t) == ["mum", "dad", "chris", "Jum", "Jom"]
    ensures forall i :: 0 <= i < |t| ==> t[i].n == 1.0 && t[i].tag == None
  {
    [ Row("mum", 0.0, 100.0, 70.0, 30.0, 1.0, None),
      Row("dad", 0.0, 100.0, 10.0, 90.0, 1.0, None),
      Row("chris", 50.0, 50.0, 70.0, 30.0, 1.0, None),
      Row("Jum", 40.0, 60.0, 70.0, 30.0, 1.0, None),
      Row("Jom", 80.0, 20.0, 50.0, 50.0, 1.0, None) ]
  }

  /** A row with its tag column set to its suggested tag. */
  function Tagged(r: Row): Row
  {
    r.(tag := Some(Label(Suggest(r))))
  }

  /** The table with its whole tag column recomputed: one tag per row, each the
      label of that row's suggestion, every other column and the order kept. */
  function Retagged(rows: seq<Row>): (out: seq<Row>)
    ensures |out| == |rows|
    ensures forall i :: 0 <= i < |rows| ==>
      out[i].tag == Some(Label(Suggest(rows[i]))) && out[i] == rows[i].(tag := out[i].tag)
  {
    if rows == [] then [] else [Tagged(rows[0])] + Retagged(rows[1..])
  }

  /** The order-preserving filter of the rows whose name differs from `name`. */
  function Without(rows: seq<Row>, name: string): (out: seq<Row>)
    ensures |out| <= |rows|
    ensures forall x :: x in out <==> x in rows && x.name != name
  {
    if rows == [] then []
    else (if rows[0].name == name then [] else [rows[0]]) + Without(rows[1..], name)
  }

  /** Step 1: a session without a table gets the initial one. */
  function Seeded(table: Option<seq<Row>>): seq<Row>
  {
    if table.Some? then table.value else InitialTable()
  }

  /** Step 2: an upload replaces the table wholesale, whatever its columns hold. */
  function Uploaded(rows: seq<Row>, upload: Option<seq<Row>>): seq<Row>
  {
    if upload.Some? then upload.value else rows
  }

  /** Step 3: a non-empty Name box appends the sidebar entry. */
  function Appended(rows: seq<Row>, e: Entry): seq<Row>
  {
    if e.name != "" then rows + [NewRow(e)] else rows
  }

  /** Step 4: the selected name is deleted, unless the sentinel is selected. */
  function Deleted(rows: seq<Row>, selected: string): seq<Row>
  {
    if selected == NoSelection then rows else Without(rows, selected)
  }

  /** One run of the script over the session's table, steps in order, ending
      with the tag column written. */
  function AfterPass(table: Option<seq<Row>>, upload: Option<seq<Row>>, e: Entry, selected: string): seq<Row>
  {
    Retagged(Deleted(Appended(Uploaded(Seeded(table), upload), e), selected))
  }

  /** Appending keeps every earlier row in place and puts the entry last;
      an empty Name box leaves the table as it was. */
  lemma AppendedShape(rows: seq<Row>, e: Entry)
    ensures e.name == "" ==> Appended(rows, e) == rows
    ensures e.name != "" ==>
      var out := Appended(rows, e);
      |out| == |rows| + 1 && out[..|rows|] == rows && out[|rows|] == NewRow(e)
  {
  }

  /** Filtering a concatenation filters each part. */
  lemma {:induction false} WithoutConcat(a: seq<Row>, b: seq<Row>, name: string)
    ensures Without(a + b, name) == Without(a, name) + Without(b, name)
  {
    if a == [] {
      assert a + b == b;
    } else {
      assert (a + b)[1..] == a[1..] + b;
      WithoutConcat(a[1..], b, name);
    }
  }

  /** Deleting a name no row carries leaves the table unchanged. */
  lemma {:induction false} WithoutAbsent(rows: seq<Row>, name: string)
    requires forall i :: 0 <= i < |rows| ==> rows[i].name != name
    ensures Without(rows, name) == rows
  {
    if rows != [] {
      WithoutAbsent(rows[1..], name);
    }
  }

  /** Deleting removes every row with the selected name and keeps the others;
      selecting the sentinel, or a name no row has, changes nothing. */
  lemma DeletedShape(rows: seq<Row>, selected: string)
    ensures selected == NoSelection ==> Deleted(rows, selected) == rows
    ensures selected != NoSelection ==>
      forall x :: x in Deleted(rows, selected) <==> x in rows && x.name != selected
    ensures (forall i :: 0 <= i < |rows| ==> rows[i].name != selected) ==> Deleted(rows, selected) == rows
  {
    if forall i :: 0 <= i < |rows| ==> rows[i].name != selected {
      WithoutAbsent(rows, selected);
    }
  }

  /** A row literally named "None" can never be deleted: choosing it in the
      delete box is indistinguishable from choosing the sentinel. */
  lemma NoneNamedRowsSurvive(rows: seq<Row>, selected: string, x: Row)
    requires x in rows && x.name == NoSelection
    ensures x in Deleted(rows, selected)
  {
  }

  /** Deletion runs after the append, so an entry carrying the selected name
      is deleted in the same pass, as if it had never been appended. */
  lemma DeleteUndoesAppendOfSelected(rows: seq<Row>, e: Entry)
    requires e.name != NoSelection
    ensures Deleted(Appended(rows, e), e.name) == Deleted(rows, e.name)
  {
    if e.name != "" {
      WithoutConcat(rows, [NewRow(e)], e.name);
      assert Without([NewRow(e)], e.name) == [];
    }
  }

  /** Retagging twice is retagging once. */
  lemma RetaggedIdempotent(rows: seq<Row>)
    ensures Retagged(Retagged(rows)) == Retagged(rows)
  {
  }

  /** Whatever tag column a table arrives with (from an upload, or missing),
      retagging overwrites it: tables that differ only in tags end up equal. */
  lemma RetaggedOverwritesTags(a: seq<Row>, b: seq<Row>)
    requires |a| == |b|
    requires forall i :: 0 <= i < |a| ==> a[i] == b[i].(tag := a[i].tag)
    ensures Retagged(a) == Retagged(b)
  {
  }

  /** Retagging and deleting by name commute: tags never decide what is deleted. */
  lemma {:induction false} RetaggedWithout(rows: seq<Row>, name: string)
    ensures Retagged(Without(rows, name)) == Without(Retagged(rows), name)
  {
    if rows != [] {
      RetaggedWithout(rows[1..], name);
      var head := if rows[0].name == name then [] else [rows[0]];
      assert Without(rows, name) == head + Without(rows[1..], name);
      RetaggedConcat(head, Without(rows[1..], name));
      assert Retagged(rows)[1..] == Retagged(rows[1..]);
    }
  }

  /** Retagging a concatenation retags each part. */
  lemma RetaggedConcat(a: seq<Row>, b: seq<Row>)
    ensures Retagged(a + b) == Retagged(a) + Retagged(b)
  {
  }

  /** After a pass with a real selection, no row carries the selected name;
      this covers a row appended in the same pass. */
  lemma PassRemovesSelected(table: Option<seq<Row>>, upload: Option<seq<Row>>, e: Entry, selected: string)
    requires selected != NoSelection
    ensures forall x :: x in AfterPass(table, upload, e, selected) ==> x.name != selected
  {
  }

  /** A named entry ends the pass as the last row, with the sidebar values and
      its suggested tag, unless a real selection names it; an entry named "None"
      survives the sentinel selection like any other. */
  lemma PassKeepsEntry(table: Option<seq<Row>>, upload: Option<seq<Row>>, e: Entry, selected: string)
    requires e.name != "" && (e.name != selected || selected == NoSelection)
    ensures var out := AfterPass(table, upload, e, selected);
      |out| > 0 && out[|out| - 1] == Tagged(NewRow(e))
  {
    var before := Uploaded(Seeded(table), upload);
    var kept := Deleted(Appended(before, e), selected);
    if selected != NoSelection {
      WithoutConcat(before, [NewRow(e)], selected);
      assert Without([NewRow(e)], selected) == [NewRow(e)];
    }
    assert kept[|kept| - 1] == NewRow(e);
  }

  /** The first pass of a session that does nothing leaves the five seed rows,
      tagged Complex, Cold Taker, Balanced, Complex and Complex. */
  lemma FirstPassTags(e: Entry)
    requires e.name == ""
    ensures var out := AfterPass(None, None, e, NoSelection);
      out == Retagged(InitialTable()) &&
      |out| == 5 && Names(out) == Names(InitialTable()) &&
      out[0].tag == Some(Label(Complex)) && out[1].tag == Some(Label(ColdTaker)) &&
      out[2].tag == Some(Label(Balanced)) && out[3].tag == Some(Label(Complex)) &&
      out[4].tag == Some(Label(Complex))
  {
  }

  /** The session state: whether a table exists yet, and its rows. */
  class Session {
    var hasTable: bool
    var rows: seq<Row>

    /** A fresh session holds no table. */
    constructor ()
      ensures !hasTable && rows == []
    {
      hasTable := false;
      rows := [];
    }

    /** The table as the session holds it, None before it is seeded. */
    function Current(): Option<seq<Row>>
      reads this
    {
      if hasTable then Some(rows) else None
    }

    /** Seed the table unless the session already has one. */
    method Seed()
      modifies this
      ensures hasTable && rows == Seeded(old(Current()))
      ensures old(hasTable) ==> rows == old(rows)
    {
      if !hasTable {
        rows := InitialTable();
        hasTable := true;
      }
    }

    /** Replace the table by an uploaded one, with no check of its columns. */
    method Replace(uploaded: seq<Row>)
      modifies this
      ensures hasTable && rows == uploaded
    {
      rows := uploaded;
      hasTable := true;
    }

    /** Append the sidebar entry when the Name box is non-empty. */
    method Append(e: Entry)
      modifies this`rows
      ensures rows == Appended(old(rows), e)
      ensures e.name != "" ==>
        |rows| == |old(rows)| + 1 && rows[..|old(rows)|] == old(rows) && rows[|old(rows)|] == NewRow(e)
      ensures e.name == "" ==> rows == old(rows)
    {
      if e.name != "" {
        rows := rows + [NewRow(e)];
      }
    }

    /** Keep only the rows whose name differs from the selection. */
    method DeleteByName(selected: string)
      modifies this`rows
      ensures rows == Deleted(old(rows), selected)
      ensures selected != NoSelection ==> forall x :: x in rows ==> x.name != selected
      ensures (forall i :: 0 <= i < |old(rows)| ==> old(rows)[i].name != selected) ==> rows == old(rows)
    {
      DeletedShape(rows, selected);
      if selected != NoSelection {
        rows := Without(rows, selected);
      }
    }

    /** Write the tag column, one row at a time. */
    method Retag()
      modifies this`rows
      ensures rows == Retagged(old(rows))
    {
      var i := 0;
      while i < |rows|
        invariant 0 <= i <= |rows| == |old(rows)|
        invariant forall k :: 0 <= k < i ==> rows[k] == Tagged(old(rows)[k])
        invariant forall k :: i <= k < |rows| ==> rows[k] == old(rows)[k]
      {
        rows := rows[i := Tagged(rows[i])];
        i := i + 1;
      }
    }

    /** One run of the script: seed, upload, append, delete, retag. */
    method Pass(upload: Option<seq<Row>>, e: Entry, selected: string)
      modifies this
      ensures hasTable && rows == AfterPass(old(Current()), upload, e, selected)
    {
      Seed();
      if upload.Some? {
        Replace(upload.value);
      }
      Append(e);
      DeleteByName(selected);
      Retag();
    }
  }
}
